=== FILE: README.md ===
# DQN agent learning loop — a Dafny model

This project models the core of Learning-Chaos, a Deep Q-Network agent. The
agent learns to play from screen images, using experience replay and a target
network. Two Python files are modelled:

- `dqn.py`, the `DQN` class. It keeps a name-keyed store of learning
  parameters. Five `W_*` weights are `tf.Variable`s and can be assigned. Five
  `b_*` biases are `tf.constant`s and cannot. It also keeps a name-keyed store
  of layer outputs. The model covers the assign-operator loop of `__init__`,
  `get_value` and `set_value`, the greedy `smartest_action`, and the clipped
  (Huber-style) mean error of `error`.
- `agent.py`, the `Agent` class. It owns the replay memory, the online DQN
  and the target DQN. The model covers the usage guard and bootstrapped
  target of `batch_q_learning`, the step triggers of `observe`, the epsilon
  formula and both branches of `select_action`, and the sync loop of
  `update_target_dqn`.

Arithmetic is over `real`. The network's forward pass is an opaque function
from parameters and one input to a row of `ACTION_SPACE` Q-values. Each network
has its own RMSProp optimizer, whose slots (the running mean square and the
momentum of each trainable parameter) persist from step to step. A step is an
opaque function from the slots, the parameters and a batch to new values for
the trainable parameters and new slots. Randomness is nondeterministic choice (`:|`). The
`Parameters` constants are one `Config` value.

Modules:

- `Wrappers`: `Option`.
- `Tensors`: tensor, screen and state types.
- `Parameters`: `Config`.
- `Loss`: one-hot selection, clipped error, batch mean.
- `Greedy`: argmax and max over a row.
- `Bootstrap`: the target `y`.
- `Schedule`: epsilon and the two triggers.
- `Dqn`: class `DQN`.
- `Collaborators`: `Memory` and `Environment`, reduced to what the agent uses.
- `Agents`: class `Agent`.

The model keeps these quirks of the code as written:

- The exploration probability is not a linear anneal. The DQN article quoted
  in the source anneals it linearly from INITIAL_EXPLORATION to
  FINAL_EXPLORATION. agent.py:94 even computes `dt_final`, the total drop
  INITIAL_EXPLORATION − FINAL_EXPLORATION such an anneal would spread over
  the window, and never uses it. The formula at agent.py:96 is
  FINAL_EXPLORATION + max(0, dt (F - max(0, dt)) / F).
  - It equals FINAL_EXPLORATION at dt = 0 and again from dt = F on.
  - Between those points it is a parabola above FINAL_EXPLORATION.
  - INITIAL_EXPLORATION never enters it.
  - Midway through a window of at least 4 steps it reaches at least
    FINAL_EXPLORATION + 1. With FINAL_EXPLORATION ≥ 0 it is then at least 1, and
    since `random.random()` is always below 1, the random branch is always
    taken there.
- `step` is set to 0 in `__init__` and never incremented.
  - No method of `Agent` has the agent in its frame.
  - `FrozenStepNeverLearns` spells out the consequence when
    REPLAY_START_SIZE ≥ 0: the agent never learns, never syncs, and explores
    with FINAL_EXPLORATION.
  - `FrozenStepAlwaysFiresWithoutWarmUp` covers a negative REPLAY_START_SIZE:
    step 0 is then past warm-up and a multiple of every frequency, so every
    `observe` call syncs, and learns whenever usage exceeds
    AGENT_HISTORY_LENGTH.
- The sync loop copies only names that have an assign operator, which are the
  weights. Biases are never copied. They are the same constants in both
  networks, so the target still ends up equal to the online network.
- `layers["fc2"]` and `layers["h_fc2"]` hold the second convolution's tensors
  (dqn.py:126). `get_value` on those names refers to the conv2 and h_conv2
  nodes.
- agent.py:52-57 is not valid Python. It is modelled as one optimizer step on
  the online network, fed the sampled states and actions and the targets.

## Model

| member | source | states |
|---|---|---|
| Loss.ClippedError | dqn.py:178-180 | The per-example error is never negative. It lies between abs(δ) − 0.5 and abs(δ), and never exceeds δ²/2. |
| Loss.Huber | dqn.py:173-176 | The doc comment's Huber loss is never negative for d ≥ 0. Beyond the threshold it is the line d·abs(x) − d²/2, which meets x²/2 at abs(x) = d. |
| Loss.ClippedErrorIsHuber | dqn.py:173-180 | The code's strict `abs(δ) < 1` gives the doc comment's Huber loss with d = 1 and `<=`, for every δ. |
| Loss.ClippedErrorContinuousAtOne | dqn.py:175-180 | At abs(δ) = 1 both branches give 0.5, so the choice of `<` or `<=` does not matter. |
| Loss.ClippedErrorSymmetric | dqn.py:178-180 | The error of −δ equals the error of δ. |
| Loss.ClippedErrorMonotone | dqn.py:178-180 | A larger abs(δ) never gives a smaller error. |
| Loss.ClippedErrorOneLipschitz | dqn.py:165-180 | Two deltas' errors differ by at most the distance between the deltas. This is the bounded slope that clipping is there to give. |
| Loss.OneHot | dqn.py:159 | The mask has one entry per action: 1 at the action and 0 everywhere else, so all zeros for an action outside [0, ACTION_SPACE). |
| Loss.QActed | dqn.py:159-161 | For an action in [0, ACTION_SPACE), summing the row times the one-hot mask gives exactly the acted Q-value. For an action outside the range, it gives 0. |
| Loss.Deltas | dqn.py:159-163 | δ has one entry per example. For an in-range action, δ[i] = target_q[i] − q_values[i][action[i]]. |
| Loss.Mean | dqn.py:182 | The mean times the batch size is the sum of the per-example errors. |
| Loss.MeanBounds | dqn.py:182 | A bound on every per-example error also bounds the batch mean. |
| Loss.MeanError | dqn.py:159-184 | The mean error of a non-empty batch is never negative. It is 0 when every target equals its acted Q-value. |
| Greedy.Argmax | dqn.py:134 | The index is in the row. No entry exceeds the entry at that index. Every earlier entry is strictly smaller, so ties go to the first index. |
| Greedy.Max | agent.py:48 | The maximum is an entry of the row, and no entry exceeds it. |
| Greedy.SmartestActions | dqn.py:132-135 | One action per row. Each action indexes into its row, and no entry of the row exceeds the entry it picks. |
| Greedy.MaxRows | agent.py:47-48 | One value per row. Each is an entry of its row, and no entry exceeds it. |
| Greedy.MaxIsAtArgmax | dqn.py:134 | The row maximum is the Q-value of the greedy action. |
| Greedy.TieGoesToFirst | dqn.py:134 | On [0.3, 0.3, 0.1] the argmax is 0. |
| Bootstrap.TerminalAsReal | agent.py:50 | A terminal flag counts as 1 and a non-terminal one as 0 in `1. - terminal`. |
| Bootstrap.TargetQ | agent.py:50 | A terminal transition's target is exactly its reward. A non-terminal one's is reward + γ·maxQ′. |
| Bootstrap.TargetQBatch | agent.py:50 | The same rule, element by element over the batch, with one target per transition. |
| Bootstrap.TerminalTargetIgnoresFuture | agent.py:50 | Changing the discount or the next-state maxima leaves every terminal target unchanged. |
| Bootstrap.WorkedTargets | agent.py:50 | A terminal reward of 0.7 gives 0.7. A non-terminal 0 + 0.9·5 gives 4.5. |
| Schedule.Epsilon | agent.py:95-96 | eps is never below FINAL_EXPLORATION. |
| Schedule.EpsilonFlatOutsideWindow | agent.py:95-96 | For F > 0, eps = FINAL_EXPLORATION whenever dt ≤ 0 or dt ≥ F. |
| Schedule.EpsilonParabolaInsideWindow | agent.py:96 | For 0 < dt < F, eps = FINAL_EXPLORATION + dt(F − dt)/F, strictly above FINAL_EXPLORATION. |
| Schedule.EpsilonAtLeastOneAboveMidWindow | agent.py:96 | For F ≥ 4, eps at dt = F/2 is at least FINAL_EXPLORATION + 1. |
| Schedule.EpsilonIgnoresInitialExploration | agent.py:94-96 | Changing INITIAL_EXPLORATION does not change eps at any step. |
| Schedule.LearnFires | agent.py:75-79 | Learning fires exactly on a step past REPLAY_START_SIZE that is k · UPDATE_FREQUENCY for some integer k. |
| Schedule.SyncFires | agent.py:75-83 | The sync fires exactly on a step past REPLAY_START_SIZE that is k · TARGET_NETWORK_UPDATE_FREQUENCY for some integer k. |
| Schedule.TriggersRecurEveryPeriod | agent.py:75-83 | With positive frequencies, a trigger that fires at some step fires again one period later. |
| Schedule.NothingFiresDuringWarmUp | agent.py:75-83 | At a step ≤ REPLAY_START_SIZE, neither learning nor the target sync fires. |
| Schedule.BothTriggersCanFire | agent.py:78-83 | The two triggers are independent. With positive frequencies, some step fires both. |
| Dqn.WeightVariable | dqn.py:187-193 | A weight is an assignable Variable holding its initial values. |
| Dqn.BiasSize | dqn.py:58-98 | Each bias has the width of its layer's output: 32, 64, 64, 512, and ACTION_SPACE for the output layer. |
| Dqn.BiasVariable | dqn.py:196-201 | A bias is a Constant of the requested length, filled with 0.1. |
| Dqn.InitialParameters | dqn.py:113-125 | The store holds exactly the five weights and five biases. Weights are Variables, and biases are 0.1-filled Constants of each layer's width. |
| Dqn.BuildAssignOperators | dqn.py:31-39 | Every learning parameter gets an input placeholder. A parameter gets an assign operator exactly when it is a Variable. |
| Dqn.AssignableAreTheWeights | dqn.py:33-39 | The assignable names are exactly the five weights, a strict subset of the learning parameters. |
| Dqn.NamesAreDisjoint | dqn.py:113-126 | No name is both a learning parameter and a layer, so the order of get_value's two tests decides nothing. |
| Dqn.DQN.GetValue | dqn.py:204-220 | A learning parameter resolves to its value. Otherwise a layer name resolves to the graph node its entry names. Any other name gives None. |
| Dqn.GetValueResolves | dqn.py:209-220 | In a DQN built by `__init__`, each name resolves to its own entry. None is returned exactly for names that are neither parameters nor layers. |
| Dqn.OutputLayerNamesAliasConv2 | dqn.py:126 | get_value("fc2") names the conv2 node, as get_value("conv2") does, and get_value("h_fc2") names the h_conv2 node. |
| Dqn.Trained | dqn.py:138-145 | An optimizer step keeps the names, leaves constants untouched, and replaces only Variables that the step updates. |
| Dqn.DQN.constructor | dqn.py:14-39 | The new network holds the initial parameters. Its placeholders cover every parameter, and its assign operators cover exactly the weights. Its optimizer slots are still empty. |
| Dqn.DQN.QValues | dqn.py:42-128 | One Q-value per action for every input. |
| Dqn.DQN.QValuesBatch | agent.py:47 | One row per input, each the Q-values of that input, with one entry per action. |
| Dqn.DQN.SmartestAction | dqn.py:131-135 | For each input, an action in [0, ACTION_SPACE) whose Q-value no other action exceeds. |
| Dqn.DQN.Error | dqn.py:148-184 | The mean clipped error of a non-empty batch is non-negative. It is 0 when every target equals the acted Q-value. |
| Dqn.DQN.SetValue | dqn.py:223-230 | A name with an assign operator gets the new value, and only that name changes. Any other name leaves every parameter as it was. After an assignment, get_value returns the new value. |
| Dqn.DQN.Optimize | dqn.py:138-145 | One RMSProp step from the previous slots, parameters and batch: the parameters take its update, and the slots become the step's new slots. The lookup tables are unchanged. |
| Collaborators.Memory.constructor | agent.py:21 | The memory starts empty. |
| Collaborators.Memory.GetUsage | agent.py:43 | Usage never exceeds the capacity or the number of records. Below capacity, it equals the number of records. |
| Collaborators.Memory.Add | agent.py:72 | The record is appended after all earlier ones, and usage stays consistent. |
| Collaborators.Memory.BringBackMemories | agent.py:45 | The five arrays of the sampled batch are aligned by position. |
| Collaborators.Environment.AddCurrentScreenToHistory | agent.py:71 | The current screen is appended to the history, so the next input ends with it. |
| Collaborators.Environment.GetInput | agent.py:103 | The input holds the screens of the history, oldest first. |
| Agents.Synced | agent.py:114-119 | The target's names are kept. An assignable name present online takes the online value, and every other name keeps the target's value. |
| Agents.SyncedIsIdempotent | agent.py:114-119 | Syncing twice in a row gives the same parameters as syncing once. |
| Agents.SyncCopiesEverything | agent.py:114-119 | Between two networks built by `__init__`, a sync makes the target equal the online network. Only weights are copied, and the biases are already equal constants. |
| Agents.Agent.constructor | agent.py:18-33 | step is 0 and the memory is empty. Two distinct networks hold their own initial parameters. Both are built from the same DQN code, so they share one forward function and one optimizer update rule, and each starts with empty slots of its own. |
| Agents.Agent.GreedyAction | agent.py:103 | The greedy action is in [0, ACTION_SPACE), and no action has a larger online Q-value on the current input. |
| Agents.Agent.BootstrapTargets | agent.py:47-50 | A terminal transition's target is its reward. A non-terminal one's is reward + γ times the target network's maximum Q-value on the next state. |
| Agents.Agent.BatchQLearning | agent.py:37-57 | Nothing changes unless usage > AGENT_HISTORY_LENGTH. Otherwise the online network takes one optimizer step from its current slots on an aligned batch, with bootstrapped targets from the target network, and its slots advance. |
| Agents.Agent.Observe | agent.py:60-83 | The history always grows by the current screen, and the memory always gains the record with its reward clipped. step is unchanged. Learning happens exactly when the learning trigger fires and usage exceeds AGENT_HISTORY_LENGTH. Without the sync trigger the target is unchanged. With it, the target equals the online network and computes the same Q-values on every input. The sync leaves the target's optimizer slots alone. The environment's current screen is unchanged. |
| Agents.Agent.SelectAction | agent.py:87-105 | The action is in [0, ACTION_SPACE). Any action other than the greedy one requires eps > 0. |
| Agents.Agent.UpdateTargetDqn | agent.py:108-119 | Every assignable target parameter equals the online value. Every other target parameter is unchanged, and the None branch is never taken. The target's optimizer slots are unchanged. |
| Agents.FrozenStepNeverLearns | agent.py:22 | With step stuck at 0 and REPLAY_START_SIZE ≥ 0, no trigger fires and eps is FINAL_EXPLORATION. |
| Agents.FrozenStepAlwaysFiresWithoutWarmUp | agent.py:75-83 | With step stuck at 0 and REPLAY_START_SIZE < 0, both triggers fire on every call. |

## Left out

- Graph construction (dqn.py:50-108): convolutions, fully connected layers, reshapes and ReLU are not modelled. They are one opaque forward function per network whose rows have ACTION_SPACE entries.
- The RMSProp update rule and `minimize` (dqn.py:141-145): the gradient, the learning rate, the decay and GRADIENT_MOMENTUM are not modelled. A step is one opaque function of the slots, the parameters and the batch. The slots start empty rather than at TensorFlow's initial values.
- Weight initialisation (dqn.py:192): the truncated-normal draw is a parameter of the constructor. Only the Variable-versus-constant distinction is modelled.
- Session and placeholders (agent.py:25-33, dqn.py:31-34): library plumbing, left out. The placeholder dict is kept only as a set of names.
- Dqn.DQN.GetValue: a layer name gives `LayerOutput(node)`, naming the graph node the lookup would evaluate. In the source, `eval()` on a layer (dqn.py:215) is called with nothing fed, while every layer depends on the `state` placeholder (dqn.py:17, 50), so that call fails instead of returning a value.
- Dqn.DQN.GetValue and Dqn.DQN.SetValue: the `eval` calls at dqn.py:211 and 228 need a default TensorFlow session. agent.py:32 creates a session but never makes it the default. The model assumes one is in place.
- Parameters.Config.Valid: requires ACTION_SPACE > 0, so the failure of `randint(0, 0)` at agent.py:100 is not modelled.
- Schedule.Epsilon: requires FINAL_EXPLORATION_FRAME ≠ 0, so the ZeroDivisionError that every `select_action` call would raise at agent.py:96 is not modelled.
- Agents.Agent.constructor: requires `Config.Valid`, so it excludes zero frequencies from the start. In the source a zero UPDATE_FREQUENCY or TARGET_NETWORK_UPDATE_FREQUENCY raises only past warm-up (agent.py:78, 82). The same holds for ACTION_SPACE = 0 and FINAL_EXPLORATION_FRAME = 0, which raise only when they are used: ACTION_SPACE = 0 makes `random.randint` fail in `select_action` (agent.py:100) and `np.max(q_t_plus_1, axis=1)` fail in `batch_q_learning` (agent.py:48); FINAL_EXPLORATION_FRAME = 0 makes the division in `select_action` fail (agent.py:96).
- Schedule.Epsilon: reads the `/` at agent.py:96 as true division, as Python 3 does. Under Python 2, with integer parameters and dt > 0, `max(0., dt)` returns the integer dt and the quotient is floored.
- Collaborators.Environment.constructor: a stand-in for environment.py's constructor, which is not modelled; the agent accepts an environment in any state.
- Schedule.LearnFires and Schedule.SyncFires: require a non-zero frequency, for the same reason.
- memory.py is not part of this model. The memory keeps every record in order, plus a usage count that saturates at the capacity. The ring buffer and the sampling of frame stacks are left out, and a sample is any aligned batch.
- environment.py and `reward_clipper` are not part of this model. `reward_clipper` is an uninterpreted function, and `get_input` returns the whole screen history.
- Stubs `save_learning_parameters`, `load_learning_parameters`, `train` and `play` only print. Prints at dqn.py:217, 230 and agent.py:119 are side-effect output only. Only their outcome (None, or no change) is modelled.
- IEEE float32 rounding and NaN are not modelled: all arithmetic is over `real`.
- Loss.MeanError: requires a non-empty batch. TensorFlow's mean of an empty batch is NaN, which reals cannot represent.
- Dqn.DQN.Error: requires a non-empty batch, for the same reason.
- Dqn.DQN.SetValue: does not check that the new value's shape matches the placeholder's, which TensorFlow checks when the assign runs.
- Agents.Agent.GreedyAction: on a one-input batch `smartest_action` returns a length-1 array. The model returns its single element.
- Agents.Agent.BatchQLearning: the `q_t` and `loss` values fetched at agent.py:52 are unused and not modelled.
- Agents.Agent.SelectAction: states neither the probability eps nor the uniformity of the random action, because randomness is nondeterministic choice. It states only that any non-greedy action requires eps > 0.
- Agents.Agent.UpdateTargetDqn: visits the names in an arbitrary order, not the dict's insertion order. Each iteration writes only its own name, so the resulting parameters are the same for every order.

=== FILE: agent.dfy ===
/**
 * The Agent class of agent.py: it owns the replay memory, the online DQN and
 * the target DQN, stores every observation, learns and synchronises the
 * target network on triggers of its step counter, and picks actions
 * epsilon-greedily. The step counter is set to 0 by the constructor and no
 * method changes it: no method's frame includes the agent object itself.
 */
module Agents {

  import opened Wrappers
  import opened Tensors
  import opened Parameters
  import opened Dqn
  import opened Greedy
  import opened Bootstrap
  import opened Schedule
  import opened Collaborators

  /**
   * The target's parameters after update_target_dqn: a name the target can
   * assign takes the online value, every other name keeps the target's value.
   */
  function Synced(target: Params, online: Params, assignable: set<string>): (r: Params)
    ensures r.Keys == target.Keys
    ensures forall n :: n in target && n in assignable && n in online ==> r[n] == online[n]
    ensures forall n :: n in target && !(n in assignable && n in online) ==> r[n] == target[n]
  {
    map n | n in target :: if n in assignable && n in online then online[n] else target[n]
  }

  class Agent {
    const cfg: Config
    const rewardClipper: real -> real
    const environment: Environment
    const memory: Memory
    const dqn: DQN
    const targetDqn: DQN
    var step: int

    ghost predicate Valid()
      reads this, memory, dqn, targetDqn
    {
      && cfg.Valid()
      && memory.Valid() && memory.capacity == cfg.memoryCapacity
      && dqn.Valid() && targetDqn.Valid() && dqn != targetDqn
      && dqn.actionSpace == cfg.actionSpace && targetDqn.actionSpace == cfg.actionSpace
      && dqn.forward == targetDqn.forward && dqn.optimizer == targetDqn.optimizer
    }

    /**
     * Agent.__init__: an empty memory, step 0, and two DQNs built from the same
     * graph with independently drawn weights. Each network builds its own
     * RMSProp optimizer: the same update rule, but slots of its own.
     */
    constructor (environment: Environment, cfg: Config, rewardClipper: real -> real,
                 forward: Forward, optimizer: Optimizer,
                 onlineInit: string -> Tensor, targetInit: string -> Tensor)
      requires cfg.Valid()
      requires forall p, s :: |forward(p, s)| == cfg.actionSpace
      ensures Valid()
      ensures step == 0
      ensures this.environment == environment && this.cfg == cfg && this.rewardClipper == rewardClipper
      ensures fresh(memory) && fresh(dqn) && fresh(targetDqn)
      ensures memory.records == []
      ensures dqn.learningParameters == InitialParameters(cfg.actionSpace, onlineInit)
      ensures targetDqn.learningParameters == InitialParameters(cfg.actionSpace, targetInit)
      ensures dqn.slots == map[] && targetDqn.slots == map[]
    {
      this.environment := environment;
      this.cfg := cfg;
      this.rewardClipper := rewardClipper;
      memory := new Memory(cfg.memoryCapacity);
      step := 0;
      dqn := new DQN(cfg.actionSpace, forward, optimizer, onlineInit);
      targetDqn := new DQN(cfg.actionSpace, forward, optimizer, targetInit);
    }

    /** The online network's greedy action on the environment's current input. */
    function GreedyAction(): (a: nat)
      reads this, memory, dqn, targetDqn, environment
      requires Valid()
      ensures a < cfg.actionSpace
      ensures forall j :: 0 <= j < cfg.actionSpace ==>
        dqn.QValues(environment.GetInput())[j] <= dqn.QValues(environment.GetInput())[a]
    {
      dqn.SmartestAction([environment.GetInput()])[0]
    }

    /**
     * target_q_t for a sampled batch, from the target network's Q-values of
     * the next states.
     */
    function BootstrapTargets(batch: Batch): (targetQ: seq<real>)
      reads targetDqn
      requires targetDqn.Valid() && batch.Aligned()
      ensures |targetQ| == |batch.states|
      ensures forall i :: 0 <= i < |targetQ| && batch.terminals[i] ==> targetQ[i] == batch.rewards[i]
      ensures forall i :: 0 <= i < |targetQ| && !batch.terminals[i] ==>
        targetQ[i] == batch.rewards[i] + cfg.discountFactor * Max(targetDqn.QValues(batch.nextStates[i]))
    {
      var qNext := targetDqn.QValuesBatch(batch.nextStates);
      var maxQNext := MaxRows(qNext);
      TargetQBatch(batch.terminals, cfg.discountFactor, maxQNext, batch.rewards)
    }

    /**
     * One optimizer step of the online network on a sampled batch, with its
     * slots as they stand and the targets bootstrapped from the target network.
     */
    ghost function LearningStep(batch: Batch): OptimizerStep
      reads dqn, targetDqn
      requires targetDqn.Valid() && batch.Aligned()
    {
      dqn.optimizer(dqn.slots, dqn.learningParameters, batch.states, batch.actions, BootstrapTargets(batch))
    }

    /**
     * batch_q_learning: nothing happens unless the memory holds more than
     * AGENT_HISTORY_LENGTH records; otherwise one optimizer step on the online
     * network, fed the sampled states and actions and the bootstrapped targets.
     * The sampled batch is returned for the specification only.
     */
    method BatchQLearning() returns (ghost sampled: Option<Batch>)
      requires Valid()
      modifies dqn
      ensures Valid()
      ensures sampled.Some? <==> memory.usage > cfg.agentHistoryLength
      ensures sampled.None? ==> dqn.learningParameters == old(dqn.learningParameters) && dqn.slots == old(dqn.slots)
      ensures sampled.Some? ==> sampled.value.Aligned()
      ensures sampled.Some? ==>
        dqn.learningParameters == Trained(old(dqn.learningParameters), old(LearningStep(sampled.value)).update)
        && dqn.slots == old(LearningStep(sampled.value)).slots
      ensures dqn.assignOperator == old(dqn.assignOperator)
    {
      sampled := None;
      if memory.GetUsage() > cfg.agentHistoryLength {
        var batch := memory.BringBackMemories();
        var targetQ := BootstrapTargets(batch);
        dqn.Optimize(batch.states, batch.actions, targetQ);
        sampled := Some(batch);
      }
    }

    /**
     * observe: always extends the environment's history and stores the
     * transition with its reward clipped; past warm-up, learns when the step is
     * a multiple of UPDATE_FREQUENCY and then synchronises the target when it
     * is a multiple of TARGET_NETWORK_UPDATE_FREQUENCY. Learning comes first,
     * so its targets are computed from the target network as it was before any
     * sync of this call. The sampled batch, if any, is returned for the
     * specification only.
     */
    method Observe(screen: Screen, action: int, reward: real, terminal: bool) returns (ghost sampled: Option<Batch>)
      requires Valid()
      modifies environment, memory, dqn, targetDqn
      ensures Valid()
      ensures step == old(step)
      ensures environment.history == old(environment.history) + [old(environment.screen)]
      ensures environment.screen == old(environment.screen)
      ensures memory.records == old(memory.records) + [Record(screen, action, rewardClipper(reward), terminal)]
      ensures sampled.Some? <==> LearnFires(cfg, step) && memory.usage > cfg.agentHistoryLength
      ensures sampled.None? ==> dqn.learningParameters == old(dqn.learningParameters) && dqn.slots == old(dqn.slots)
      ensures sampled.Some? ==> sampled.value.Aligned()
      ensures sampled.Some? ==>
        dqn.learningParameters == Trained(old(dqn.learningParameters), old(LearningStep(sampled.value)).update)
        && dqn.slots == old(LearningStep(sampled.value)).slots
      ensures targetDqn.slots == old(targetDqn.slots)
      ensures !SyncFires(cfg, step) ==> targetDqn.learningParameters == old(targetDqn.learningParameters)
      ensures SyncFires(cfg, step) ==>
        targetDqn.learningParameters ==
          Synced(old(targetDqn.learningParameters), dqn.learningParameters, targetDqn.assignOperator)
      ensures SyncFires(cfg, step) ==> targetDqn.learningParameters == dqn.learningParameters
      ensures SyncFires(cfg, step) ==> forall s :: targetDqn.QValues(s) == dqn.QValues(s)
    {
      environment.AddCurrentScreenToHistory();
      memory.Add(screen, action, rewardClipper(reward), terminal);
      sampled := None;
      if step > cfg.replayStartSize {
        if step % cfg.updateFrequency == 0 {
          sampled := BatchQLearning();
        }
        if step % cfg.targetNetworkUpdateFrequency == 0 {
          SyncCopiesEverything(dqn, targetDqn);
          UpdateTargetDqn();
        }
      }
    }

    /**
     * select_action: with probability eps a uniformly drawn action, otherwise
     * the online network's greedy action on the current input.
     */
    method SelectAction() returns (action: int)
      requires Valid()
      ensures 0 <= action < cfg.actionSpace
      ensures action != GreedyAction() ==> Epsilon(cfg, step) > 0.0
    {
      var dtFinal := cfg.initialExploration - cfg.finalExploration;  // computed, never used
      var eps := Epsilon(cfg, step);
      var coin: real :| 0.0 <= coin < 1.0;  // random.random()
      if coin < eps {
        action :| 0 <= action < cfg.actionSpace;  // np.random.randint(0, ACTION_SPACE)
      } else {
        action := dqn.SmartestAction([environment.GetInput()])[0];
      }
    }

    /**
     * update_target_dqn: for each online learning parameter, copy its value
     * into the target through set_value. Names without an assign operator (the
     * biases) are left as they are. The loop visits the names in an arbitrary
     * order; each step touches one distinct name, so the result is the same for
     * every order, the dictionary's insertion order included.
     */
    method UpdateTargetDqn()
      requires Valid()
      modifies targetDqn
      ensures Valid()
      ensures targetDqn.learningParameters ==
        Synced(old(targetDqn.learningParameters), dqn.learningParameters, targetDqn.assignOperator)
      ensures targetDqn.assignOperator == old(targetDqn.assignOperator)
      ensures targetDqn.slots == old(targetDqn.slots)
    {
      ghost var before := targetDqn.learningParameters;
      ghost var online := dqn.learningParameters;
      ghost var assignable := targetDqn.assignOperator;
      var remaining := dqn.learningParameters.Keys;
      ghost var done: set<string> := {};
      while remaining != {}
        invariant remaining <= online.Keys && done == online.Keys - remaining
        invariant targetDqn.Valid() && targetDqn.assignOperator == assignable
        invariant targetDqn.learningParameters.Keys == before.Keys
        invariant targetDqn.slots == old(targetDqn.slots)
        invariant forall n :: n in before ==>
          targetDqn.learningParameters[n] == if n in assignable && n in done then online[n] else before[n]
        decreases remaining
      {
        var name :| name in remaining;
        var dqnValue := dqn.GetValue(name);
        if dqnValue == None {
          // every name iterated is a learning parameter, so get_value never returns None here
          assert false;
        }
        targetDqn.SetValue(name, dqnValue.value.tensor);
        done := done + {name};
        remaining := remaining - {name};
      }
      SyncedPointwise(targetDqn.learningParameters, before, online, assignable);
    }
  }

  /** A parameter map that agrees with Synced name by name is Synced. */
  lemma SyncedPointwise(r: Params, target: Params, online: Params, assignable: set<string>)
    requires r.Keys == target.Keys
    requires forall n :: n in target ==> r[n] == if n in assignable && n in online then online[n] else target[n]
    ensures r == Synced(target, online, assignable)
  {
  }

  // ---------------------------------------------------------------------------
  // Lemmas

  /** Synchronising twice in a row changes nothing the first time did not. */
  lemma SyncedIsIdempotent(target: Params, online: Params, assignable: set<string>)
    ensures Synced(Synced(target, online, assignable), online, assignable) == Synced(target, online, assignable)
  {
  }

  /**
   * After a sync the target equals the online network entirely: the weights
   * are copied, and the biases, never copied, are the same constants in both.
   */
  lemma SyncCopiesEverything(online: DQN, target: DQN)
    requires online.Valid() && target.Valid() && online.actionSpace == target.actionSpace
    ensures Synced(target.learningParameters, online.learningParameters, target.assignOperator)
            == online.learningParameters
  {
    var r := Synced(target.learningParameters, online.learningParameters, target.assignOperator);
    forall n | n in r
      ensures r[n] == online.learningParameters[n]
    {
      if n in BIAS_NAMES {
        assert n !in WEIGHT_NAMES;
      }
    }
  }

  /**
   * Because step stays at 0, an agent whose REPLAY_START_SIZE is not negative
   * never learns and never synchronises, and explores with FINAL_EXPLORATION.
   */
  lemma FrozenStepNeverLearns(cfg: Config)
    requires cfg.Valid() && cfg.replayStartSize >= 0 && cfg.finalExplorationFrame > 0
    ensures !LearnFires(cfg, 0) && !SyncFires(cfg, 0)
    ensures Epsilon(cfg, 0) == cfg.finalExploration
  {
    EpsilonFlatOutsideWindow(cfg, 0);
  }

  /**
   * With a negative REPLAY_START_SIZE the frozen step 0 is already past
   * warm-up and a multiple of every frequency, so every observe call fires
   * both triggers.
   */
  lemma FrozenStepAlwaysFiresWithoutWarmUp(cfg: Config)
    requires cfg.Valid() && cfg.replayStartSize < 0
    ensures LearnFires(cfg, 0) && SyncFires(cfg, 0)
  {
    assert 0 == Times(0, cfg.updateFrequency);
    assert 0 == Times(0, cfg.targetNetworkUpdateFrequency);
  }
}

=== FILE: bootstrap.dfy ===
/**
 * The bootstrapped Q-learning target of Agent.batch_q_learning (agent.py):
 * target_q_t = (1 - terminal) * DISCOUNT_FACTOR * max_q_t_plus_1 + reward,
 * element by element over the sampled batch.
 */
module Bootstrap {

  /** A terminal flag as the number that `1. - terminal` subtracts. */
  function TerminalAsReal(terminal: bool): (r: real)
    ensures terminal ==> r == 1.0
    ensures !terminal ==> r == 0.0
  {
    if terminal then 1.0 else 0.0
  }

  /** The target of one transition. */
  function TargetQ(terminal: bool, discount: real, maxQNext: real, reward: real): (y: real)
    ensures terminal ==> y == reward
    ensures !terminal ==> y == reward + discount * maxQNext
  {
    (1.0 - TerminalAsReal(terminal)) * discount * maxQNext + reward
  }

  /** target_q_t for a batch: a terminal transition gets no discounted future contribution. */
  function TargetQBatch(terminals: seq<bool>, discount: real, maxQNext: seq<real>, rewards: seq<real>): (y: seq<real>)
    requires |terminals| == |maxQNext| == |rewards|
    ensures |y| == |rewards|
    ensures forall i :: 0 <= i < |y| && terminals[i] ==> y[i] == rewards[i]
    ensures forall i :: 0 <= i < |y| && !terminals[i] ==> y[i] == rewards[i] + discount * maxQNext[i]
  {
    seq(|rewards|, i requires 0 <= i < |rewards| => TargetQ(terminals[i], discount, maxQNext[i], rewards[i]))
  }

  /**
   * The discount and the next-state maximum reach a target only through a
   * non-terminal transition: changing them leaves every terminal target as it is.
   */
  lemma TerminalTargetIgnoresFuture(terminals: seq<bool>, d1: real, d2: real, m1: seq<real>, m2: seq<real>, rewards: seq<real>)
    requires |terminals| == |m1| == |m2| == |rewards|
    ensures forall i :: 0 <= i < |rewards| && terminals[i] ==>
      TargetQBatch(terminals, d1, m1, rewards)[i] == TargetQBatch(terminals, d2, m2, rewards)[i]
  {
  }

  /** The two worked cases: a terminal 0.7 stays 0.7, a non-terminal 0 + 0.9 * 5 is 4.5. */
  lemma WorkedTargets()
    ensures TargetQ(true, 0.99, 100.0, 0.7) == 0.7
    ensures TargetQ(false, 0.9, 5.0, 0.0) == 4.5
  {
  }
}

=== FILE: collaborators.dfy ===
/**
 * The two collaborators the Agent drives, reduced to what agent.py uses of
 * them: the replay memory's add, usage count and minibatch sampling, and the
 * environment's history and input. Neither memory.py nor environment.py is
 * part of this model; both are abstract here.
 */
module Collaborators {

  import opened Tensors

  /** One frame-level record as observe hands it to Memory.add. */
  datatype Record = Record(screen: Screen, action: int, reward: real, terminal: bool)

  /** A minibatch as bring_back_memories returns it: five arrays aligned by position. */
  datatype Batch = Batch(
    states: seq<State>,
    actions: seq<int>,
    rewards: seq<real>,
    nextStates: seq<State>,
    terminals: seq<bool>)
  {
    predicate Aligned() {
      |actions| == |states| && |rewards| == |states| && |nextStates| == |states| && |terminals| == |states|
    }
  }

  function Min(a: nat, b: nat): nat {
    if a <= b then a else b
  }

  /**
   * The replay memory: every record added, in order, and the usage count,
   * which saturates at the capacity. How the records are stored and sampled
   * is not modelled.
   */
  class Memory {
    const capacity: nat
    var records: seq<Record>
    var usage: nat

    ghost predicate Valid()
      reads this
    {
      usage == Min(|records|, capacity)
    }

    constructor (capacity: nat)
      ensures Valid() && this.capacity == capacity && records == []
    {
      this.capacity := capacity;
      records := [];
      usage := 0;
    }

    /** get_usage: how many stored records are valid; never more than the capacity. */
    function GetUsage(): (u: nat)
      reads this
      requires Valid()
      ensures u <= capacity && u <= |records|
      ensures |records| <= capacity ==> u == |records|
    {
      usage
    }

    /** add: records the transition and counts it, up to the capacity. */
    method Add(screen: Screen, action: int, reward: real, terminal: bool)
      requires Valid()
      modifies this
      ensures Valid()
      ensures records == old(records) + [Record(screen, action, reward, terminal)]
    {
      records := records + [Record(screen, action, reward, terminal)];
      if usage < capacity {
        usage := usage + 1;
      }
    }

    /** bring_back_memories: some aligned minibatch, drawn at random. */
    method BringBackMemories() returns (batch: Batch)
      ensures batch.Aligned()
    {
      assert Batch([], [], [], [], []).Aligned();
      batch :| batch.Aligned();
    }
  }

  /** The emulator wrapper: its current screen and the history of screens it keeps. */
  class Environment {
    var screen: Screen
    var history: seq<Screen>

    constructor (screen: Screen)
      ensures this.screen == screen && history == []
    {
      this.screen := screen;
      history := [];
    }

    /** add_current_screen_to_history. */
    method AddCurrentScreenToHistory()
      modifies this
      ensures history == old(history) + [old(screen)] && screen == old(screen)
      ensures GetInput() == old(GetInput()) + [screen]
    {
      history := history + [screen];
    }

    /** get_input: the network input the environment builds from its history, oldest screen first. */
    function GetInput(): (input: State)
      reads this
      ensures |input| == |history|
      ensures forall i :: 0 <= i < |input| ==> input[i] == history[i]
    {
      history
    }
  }
}

=== FILE: dqn.dfy ===
/**
 * The DQN class of dqn.py with its name-keyed parameter store. The network
 * itself (convolutions, fully connected layers, RMSProp) is opaque: a DQN holds
 * a forward function from its parameters and an input to the row of Q-values,
 * and an optimizer step that yields new values for the trainable parameters.
 * What is modelled is which names exist, which of them can be assigned, and
 * how get_value and set_value look names up.
 */
module Dqn {

  import opened Wrappers
  import opened Tensors
  import Loss
  import Greedy

  /**
   * A learning parameter as the graph holds it: weight_variable makes a
   * tf.Variable, which has an assign operation; bias_variable makes a
   * tf.constant, which has none.
   */
  datatype Param = Variable(value: Tensor) | Constant(value: Tensor)

  type Params = map<string, Param>

  /** What get_value evaluates: a learning parameter's value, or the output of a graph node. */
  datatype Value = ParameterValue(tensor: Tensor) | LayerOutput(node: string)

  /** q_values: the graph from the parameters and one input to one Q-value per action. */
  type Forward = (Params, State) -> seq<real>

  /**
   * RMSProp's slot variables: the running mean square of the gradient and the
   * momentum accumulator of each trainable parameter, kept from step to step.
   */
  type Slots = map<string, Tensor>

  /** The outcome of one step: new values for trainable parameters and the new slots. */
  datatype OptimizerStep = OptimizerStep(update: map<string, Tensor>, slots: Slots)

  /**
   * One RMSProp minimize step on (state, action, target_q). Its outcome depends
   * on the slots left by earlier steps as well as on the parameters and the batch.
   */
  type Optimizer = (Slots, Params, seq<State>, seq<int>, seq<real>) -> OptimizerStep

  const WEIGHT_NAMES: set<string> := {"W_conv1", "W_conv2", "W_conv3", "W_fc1", "W_fc2"}
  const BIAS_NAMES: set<string> := {"b_conv1", "b_conv2", "b_conv3", "b_fc1", "b_fc2"}

  /**
   * The layers dict: each name and the graph node whose output it holds.
   * "fc2" and "h_fc2" are given the tensors of the second convolution.
   */
  const LAYERS: map<string, string> := map[
    "conv1" := "conv1", "h_conv1" := "h_conv1",
    "conv2" := "conv2", "h_conv2" := "h_conv2",
    "conv3" := "conv3", "h_conv3" := "h_conv3", "h_conv3_flat" := "h_conv3_flat",
    "fc1" := "fc1", "h_fc1" := "h_fc1",
    "fc2" := "conv2", "h_fc2" := "h_conv2"]

  /** The constant every bias starts from. */
  const BIAS_INIT: real := 0.1

  /** The length of each bias vector: the filters of each layer, and one bias per action at the output. */
  function BiasSize(name: string, actionSpace: nat): (size: nat)
    ensures name == "b_conv1" ==> size == 32
    ensures name == "b_conv2" || name == "b_conv3" ==> size == 64
    ensures name == "b_fc1" ==> size == 512
    ensures name == "b_fc2" ==> size == actionSpace
  {
    match name
    case "b_conv1" => 32
    case "b_conv2" => 64
    case "b_conv3" => 64
    case "b_fc1" => 512
    case _ => actionSpace
  }

  /** weight_variable: an assignable tensor holding the (randomly drawn) initial values. */
  function WeightVariable(init: Tensor): (p: Param)
    ensures p.Variable? && p.value == init
  {
    Variable(init)
  }

  /** bias_variable: a constant tensor of the given length filled with 0.1. */
  function BiasVariable(size: nat): (p: Param)
    ensures p.Constant? && |p.value| == size
    ensures forall i :: 0 <= i < size ==> p.value[i] == BIAS_INIT
  {
    Constant(seq(size, _ => BIAS_INIT))
  }

  /** The learning_parameters dict as q_values fills it. */
  function InitialParameters(actionSpace: nat, initWeight: string -> Tensor): (p: Params)
    ensures p.Keys == WEIGHT_NAMES + BIAS_NAMES
    ensures forall n :: n in WEIGHT_NAMES ==> p[n] == WeightVariable(initWeight(n))
    ensures forall n :: n in BIAS_NAMES ==> p[n] == BiasVariable(BiasSize(n, actionSpace))
  {
    map[
      "W_conv1" := WeightVariable(initWeight("W_conv1")), "b_conv1" := BiasVariable(32),
      "W_conv2" := WeightVariable(initWeight("W_conv2")), "b_conv2" := BiasVariable(64),
      "W_conv3" := WeightVariable(initWeight("W_conv3")), "b_conv3" := BiasVariable(64),
      "W_fc1" := WeightVariable(initWeight("W_fc1")), "b_fc1" := BiasVariable(512),
      "W_fc2" := WeightVariable(initWeight("W_fc2")), "b_fc2" := BiasVariable(actionSpace)]
  }

  /**
   * The loop of DQN.__init__: every learning parameter gets an input
   * placeholder, and an assign operator when `.assign` exists, that is when it
   * is a Variable (for a constant the AttributeError is caught and the name
   * skipped).
   */
  method BuildAssignOperators(params: Params) returns (inputs: set<string>, operators: set<string>)
    ensures inputs == params.Keys
    ensures operators == set n | n in params && params[n].Variable?
    ensures operators <= inputs
  {
    inputs, operators := {}, {};
    var remaining := params.Keys;
    while remaining != {}
      invariant remaining <= params.Keys
      invariant inputs == params.Keys - remaining
      invariant operators == set n | n in inputs && params[n].Variable?
      decreases remaining
    {
      var name :| name in remaining;
      inputs := inputs + {name};
      if params[name].Variable? {
        operators := operators + {name};
      }
      remaining := remaining - {name};
    }
  }

  /**
   * The parameters after one optimizer step: the step changes trainable
   * Variables only; constants are not trained.
   */
  function Trained(params: Params, update: map<string, Tensor>): (r: Params)
    ensures r.Keys == params.Keys
    ensures forall n :: n in params && params[n].Constant? ==> r[n] == params[n]
    ensures forall n :: n in params && params[n].Variable? ==>
      r[n] == Variable(if n in update then update[n] else params[n].value)
  {
    map n | n in params :: if params[n].Variable? && n in update then Variable(update[n]) else params[n]
  }

  class DQN {
    const actionSpace: nat
    const forward: Forward
    const optimizer: Optimizer
    var learningParameters: Params
    /** This network's own optimizer slots; no step has filled them yet when it is built. */
    var slots: Slots
    var layers: map<string, string>
    /** The names that have an input placeholder (l_param_input). */
    var paramInput: set<string>
    /** The names that have an assign operator (assign_operator). */
    var assignOperator: set<string>

    ghost predicate Valid()
      reads this
    {
      && actionSpace > 0
      && (forall p, s :: |forward(p, s)| == actionSpace)
      && learningParameters.Keys == WEIGHT_NAMES + BIAS_NAMES
      && (forall n :: n in WEIGHT_NAMES ==> learningParameters[n].Variable?)
      && (forall n :: n in BIAS_NAMES ==> learningParameters[n] == BiasVariable(BiasSize(n, actionSpace)))
      && layers == LAYERS
      && paramInput == learningParameters.Keys
      && assignOperator == WEIGHT_NAMES
    }

    /** DQN.__init__: build the graph's parameter and layer dicts, then the assign operators. */
    constructor (actionSpace: nat, forward: Forward, optimizer: Optimizer, initWeight: string -> Tensor)
      requires actionSpace > 0
      requires forall p, s :: |forward(p, s)| == actionSpace
      ensures Valid()
      ensures this.actionSpace == actionSpace && this.forward == forward && this.optimizer == optimizer
      ensures learningParameters == InitialParameters(actionSpace, initWeight)
      ensures slots == map[]
    {
      this.actionSpace := actionSpace;
      this.forward := forward;
      this.optimizer := optimizer;
      var params := InitialParameters(actionSpace, initWeight);
      var inputs, operators := BuildAssignOperators(params);
      AssignableAreTheWeights(actionSpace, initWeight);
      learningParameters := params;
      layers := LAYERS;
      paramInput := inputs;
      assignOperator := operators;
      slots := map[];
    }

    /** The Q-values of one input under the current parameters. */
    function QValues(s: State): (q: seq<real>)
      reads this
      requires Valid()
      ensures |q| == actionSpace
    {
      forward(learningParameters, s)
    }

    /** The Q-values of a batch of inputs. */
    function QValuesBatch(states: seq<State>): (q: seq<seq<real>>)
      reads this
      requires Valid()
      ensures |q| == |states|
      ensures forall i :: 0 <= i < |states| ==> q[i] == QValues(states[i]) && |q[i]| == actionSpace
    {
      var params := learningParameters;
      seq(|states|, i requires 0 <= i < |states| => forward(params, states[i]))
    }

    /** smartest_action: for each input, an action whose Q-value no other action exceeds. */
    function SmartestAction(states: seq<State>): (actions: seq<nat>)
      reads this
      requires Valid()
      ensures |actions| == |states|
      ensures forall i :: 0 <= i < |states| ==> actions[i] < actionSpace
      ensures forall i, j {:trigger QValues(states[i])[j]} :: 0 <= i < |states| && 0 <= j < actionSpace ==>
        QValues(states[i])[j] <= QValues(states[i])[actions[i]]
    {
      Greedy.SmartestActions(QValuesBatch(states))
    }

    /** error: the mean clipped error of the batch, never negative. */
    function Error(states: seq<State>, actions: seq<int>, targetQ: seq<real>): (loss: real)
      reads this
      requires Valid()
      requires |states| == |actions| == |targetQ| > 0
      ensures loss >= 0.0
      ensures (forall i :: 0 <= i < |states| ==>
                 0 <= actions[i] < actionSpace && targetQ[i] == QValues(states[i])[actions[i]]) ==> loss == 0.0
    {
      Loss.MeanError(QValuesBatch(states), actions, targetQ)
    }

    /**
     * get_value: a learning parameter first, then a layer, otherwise None. A
     * layer resolves to the graph node its entry names.
     */
    function GetValue(name: string): (v: Option<Value>)
      reads this
      ensures v.Some? <==> name in learningParameters || name in layers
      ensures name in learningParameters ==> v == Some(ParameterValue(learningParameters[name].value))
      ensures name !in learningParameters && name in layers ==> v == Some(LayerOutput(layers[name]))
    {
      if name in learningParameters then Some(ParameterValue(learningParameters[name].value))
      else if name in layers then Some(LayerOutput(layers[name]))
      else None
    }

    /** set_value: assigns only through an assign operator; any other name changes nothing. */
    method SetValue(name: string, newValue: Tensor)
      requires Valid()
      modifies this
      ensures Valid()
      ensures name in assignOperator ==> learningParameters == old(learningParameters)[name := Variable(newValue)]
      ensures name !in assignOperator ==> learningParameters == old(learningParameters)
      ensures name in assignOperator ==> GetValue(name) == Some(ParameterValue(newValue))
      ensures slots == old(slots)
      ensures layers == old(layers) && paramInput == old(paramInput) && assignOperator == old(assignOperator)
    {
      if name in assignOperator {
        learningParameters := learningParameters[name := Variable(newValue)];
      }
    }

    /**
     * The optimize operation run on a batch: one opaque step on the trainable
     * parameters, which reads and advances this network's slots.
     */
    method Optimize(states: seq<State>, actions: seq<int>, targetQ: seq<real>)
      requires Valid()
      modifies this
      ensures Valid()
      ensures learningParameters ==
        Trained(old(learningParameters), optimizer(old(slots), old(learningParameters), states, actions, targetQ).update)
      ensures slots == optimizer(old(slots), old(learningParameters), states, actions, targetQ).slots
      ensures layers == old(layers) && paramInput == old(paramInput) && assignOperator == old(assignOperator)
    {
      var outcome := optimizer(slots, learningParameters, states, actions, targetQ);
      learningParameters := Trained(learningParameters, outcome.update);
      slots := outcome.slots;
    }
  }

  // ---------------------------------------------------------------------------
  // Lemmas

  /**
   * Only the five weights get an assign operator: the biases are constants, so
   * the assignable names are a strict subset of the learning parameters.
   */
  lemma AssignableAreTheWeights(actionSpace: nat, initWeight: string -> Tensor)
    ensures var p := InitialParameters(actionSpace, initWeight);
            (set n | n in p && p[n].Variable?) == WEIGHT_NAMES && WEIGHT_NAMES < p.Keys
  {
    var p := InitialParameters(actionSpace, initWeight);
    assert "b_conv1" in p.Keys - WEIGHT_NAMES;
    forall n | n in p
      ensures p[n].Variable? <==> n in WEIGHT_NAMES
    {
      if n in BIAS_NAMES {
        assert p[n].Constant?;
      }
    }
  }

  /** No name is both a learning parameter and a layer, so get_value's order of tests decides nothing. */
  lemma NamesAreDisjoint()
    ensures (WEIGHT_NAMES + BIAS_NAMES) !! LAYERS.Keys
  {
  }

  /** In a valid DQN every name resolves to its own entry, and only known names resolve. */
  lemma GetValueResolves(d: DQN, name: string)
    requires d.Valid()
    ensures name in d.learningParameters ==> d.GetValue(name) == Some(ParameterValue(d.learningParameters[name].value))
    ensures name in LAYERS ==> d.GetValue(name) == Some(LayerOutput(LAYERS[name]))
    ensures d.GetValue(name) == None <==> name !in WEIGHT_NAMES + BIAS_NAMES && name !in LAYERS
  {
    NamesAreDisjoint();
  }

  /** get_value("fc2") and get_value("h_fc2") evaluate the second convolution's tensors. */
  lemma OutputLayerNamesAliasConv2(d: DQN)
    requires d.Valid()
    ensures d.GetValue("fc2") == d.GetValue("conv2") == Some(LayerOutput("conv2"))
    ensures d.GetValue("h_fc2") == d.GetValue("h_conv2") == Some(LayerOutput("h_conv2"))
  {
    assert LAYERS["fc2"] == "conv2" && LAYERS["conv2"] == "conv2";
    assert LAYERS["h_fc2"] == "h_conv2" && LAYERS["h_conv2"] == "h_conv2";
    GetValueResolves(d, "fc2");
    GetValueResolves(d, "conv2");
    GetValueResolves(d, "h_fc2");
    GetValueResolves(d, "h_conv2");
  }
}

=== FILE: greedy.dfy ===
/**
 * The two reductions over a row of Q-values: tf.argmax(q_values, axis=1) in
 * DQN.smartest_action (dqn.py), and np.max(q_t_plus_1, axis=1) in
 * Agent.batch_q_learning (agent.py).
 */
module Greedy {

  /**
   * The index of a largest entry of a non-empty row; among equal largest
   * entries, the first.
   */
  function Argmax(row: seq<real>): (k: nat)
    requires |row| > 0
    ensures k < |row|
    ensures forall j :: 0 <= j < |row| ==> row[j] <= row[k]
    ensures forall j :: 0 <= j < k ==> row[j] < row[k]
  {
    if |row| == 1 then 0
    else
      var k := Argmax(row[..|row| - 1]);
      if row[|row| - 1] > row[k] then |row| - 1 else k
  }

  /** The largest entry of a non-empty row. */
  function Max(row: seq<real>): (m: real)
    requires |row| > 0
    ensures m in row
    ensures forall j :: 0 <= j < |row| ==> row[j] <= m
  {
    if |row| == 1 then row[0]
    else
      var m := Max(row[1..]);
      if row[0] >= m then row[0] else m
  }

  /** smartest_action: one greedy action per row of the batch. */
  function SmartestActions(qValues: seq<seq<real>>): (actions: seq<nat>)
    requires forall i :: 0 <= i < |qValues| ==> |qValues[i]| > 0
    ensures |actions| == |qValues|
    ensures forall i :: 0 <= i < |qValues| ==> actions[i] < |qValues[i]|
    ensures forall i, j {:trigger qValues[i][j]} :: 0 <= i < |qValues| && 0 <= j < |qValues[i]| ==>
      qValues[i][j] <= qValues[i][actions[i]]
  {
    seq(|qValues|, i requires 0 <= i < |qValues| => Argmax(qValues[i]))
  }

  /** max_q_t_plus_1: the largest Q-value of every row of the batch. */
  function MaxRows(qValues: seq<seq<real>>): (maxima: seq<real>)
    requires forall i :: 0 <= i < |qValues| ==> |qValues[i]| > 0
    ensures |maxima| == |qValues|
    ensures forall i :: 0 <= i < |qValues| ==> maxima[i] in qValues[i]
    ensures forall i, j :: 0 <= i < |qValues| && 0 <= j < |qValues[i]| ==> qValues[i][j] <= maxima[i]
  {
    seq(|qValues|, i requires 0 <= i < |qValues| => Max(qValues[i]))
  }

  /** The greedy action's Q-value is the row's maximum: the two reductions agree. */
  lemma MaxIsAtArgmax(row: seq<real>)
    requires |row| > 0
    ensures Max(row) == row[Argmax(row)]
  {
  }

  /** Ties go to the first index: argmax [0.3, 0.3, 0.1] is 0. */
  lemma TieGoesToFirst()
    ensures Argmax([0.3, 0.3, 0.1]) == 0
  {
  }
}

=== FILE: loss.dfy ===
/**
 * The arithmetic of DQN.error (dqn.py): the Q-value of the action taken is
 * picked out of each row by a one-hot mask, the temporal-difference error
 * delta = target_q - q_acted goes through the clipped (Huber, d = 1) error,
 * and the batch loss is the mean of the clipped errors.
 */
module Loss {

  import opened RealFacts

  function Abs(x: real): real {
    if x < 0.0 then -x else x
  }

  /** reduce_sum over one row. */
  function Sum(s: seq<real>): real {
    if s == [] then 0.0 else s[0] + Sum(s[1..])
  }

  /**
   * tf.one_hot(action, n, on_value=1, off_value=0): a 1 at the action and 0
   * everywhere else, so all zeros when the action is outside [0, n).
   */
  function OneHot(action: int, n: nat): (mask: seq<real>)
    ensures |mask| == n
    ensures forall i :: 0 <= i < n ==> mask[i] == (if i == action then 1.0 else 0.0)
  {
    seq(n, i => if i == action then 1.0 else 0.0)
  }

  /**
   * q_acted for one row: reduce_sum(q_values * one_hot(action), axis=1). The
   * mask picks out the acted Q-value; an action outside the row picks nothing.
   */
  function QActed(q: seq<real>, action: int): (r: real)
    ensures 0 <= action < |q| ==> r == q[action]
    ensures action < 0 || |q| <= action ==> r == 0.0
  {
    var mask := OneHot(action, |q|);
    var masked := seq(|q|, i requires 0 <= i < |q| => q[i] * mask[i]);
    if 0 <= action < |q| then
      SumOfSingleEntry(masked, action);
      Sum(masked)
    else
      SumOfZeros(masked);
      Sum(masked)
  }

  /** The clipped error of dqn.py, with the strict `<` the code uses. */
  function ClippedError(delta: real): (e: real)
    ensures e >= 0.0
    ensures Abs(delta) - 0.5 <= e <= Abs(delta)
    ensures e <= 0.5 * delta * delta
  {
    HalfSquareAbove(delta);
    if Abs(delta) < 1.0 then
      HalfSquareBelow(delta);
      delta * delta * 0.5
    else
      Abs(delta) - 0.5
  }

  /**
   * The Huber loss as the doc comment of DQN.error writes it, for a general
   * threshold d: quadratic up to and including |x| = d, linear beyond. For a
   * non-negative d it is never negative, and its linear branch continues the
   * quadratic one: beyond the threshold it is the line d |x| - d²/2, which
   * meets x²/2 at |x| = d.
   */
  function Huber(x: real, d: real): (h: real)
    ensures 0.0 <= d ==> 0.0 <= h
    ensures 0.0 <= d <= Abs(x) ==> h == d * Abs(x) - 0.5 * d * d
  {
    if Abs(x) <= d then
      NonNegProduct(Abs(x), Abs(x));
      assert x * x == Abs(x) * Abs(x);
      0.5 * x * x
    else
      LinearBranchNonNeg(x, d);
      0.5 * d * d + d * (Abs(x) - d)
  }

  /** reduce_mean over a non-empty batch: the mean times the batch size is the total. */
  function Mean(s: seq<real>): (m: real)
    requires |s| > 0
    ensures m * (|s| as real) == Sum(s)
  {
    Sum(s) / (|s| as real)
  }

  /** The per-example deltas target_q - q_acted of a batch. */
  function Deltas(qValues: seq<seq<real>>, actions: seq<int>, targetQ: seq<real>): (d: seq<real>)
    requires |qValues| == |actions| == |targetQ|
    ensures |d| == |targetQ|
    ensures forall i :: 0 <= i < |d| && 0 <= actions[i] < |qValues[i]| ==>
      d[i] == targetQ[i] - qValues[i][actions[i]]
  {
    seq(|targetQ|, i requires 0 <= i < |targetQ| => targetQ[i] - QActed(qValues[i], actions[i]))
  }

  /** mean_error: the batch mean of the clipped deltas. */
  function MeanError(qValues: seq<seq<real>>, actions: seq<int>, targetQ: seq<real>): (loss: real)
    requires |qValues| == |actions| == |targetQ| > 0
    ensures loss >= 0.0
    ensures (forall i :: 0 <= i < |targetQ| ==>
               0 <= actions[i] < |qValues[i]| && targetQ[i] == qValues[i][actions[i]]) ==> loss == 0.0
  {
    var d := Deltas(qValues, actions, targetQ);
    var clipped := seq(|d|, i requires 0 <= i < |d| => ClippedError(d[i]));
    MeanBounds(clipped, 0.0, 0.0);
    Mean(clipped)
  }

  // ---------------------------------------------------------------------------
  // Lemmas

  lemma {:induction false} SumOfZeros(s: seq<real>)
    requires forall i :: 0 <= i < |s| ==> s[i] == 0.0
    ensures Sum(s) == 0.0
  {
    if s != [] {
      SumOfZeros(s[1..]);
    }
  }

  /** A row whose only non-zero entry can be at k sums to its k-th entry. */
  lemma {:induction false} SumOfSingleEntry(s: seq<real>, k: nat)
    requires k < |s|
    requires forall i :: 0 <= i < |s| && i != k ==> s[i] == 0.0
    ensures Sum(s) == s[k]
  {
    if k == 0 {
      SumOfZeros(s[1..]);
    } else {
      SumOfSingleEntry(s[1..], k - 1);
    }
  }

  /** The code's strict `<` and the doc comment's `<=` give the same error. */
  lemma ClippedErrorIsHuber(delta: real)
    ensures ClippedError(delta) == Huber(delta, 1.0)
  {
  }

  /** Both branches meet at |delta| = 1 with the value 0.5. */
  lemma ClippedErrorContinuousAtOne(delta: real)
    requires Abs(delta) == 1.0
    ensures ClippedError(delta) == 0.5 && delta * delta * 0.5 == 0.5
  {
  }

  /** The clipped error depends only on |delta|. */
  lemma ClippedErrorSymmetric(delta: real)
    ensures ClippedError(-delta) == ClippedError(delta)
  {
  }

  /** The clipped error grows with |delta|. */
  lemma ClippedErrorMonotone(x: real, y: real)
    requires Abs(x) <= Abs(y)
    ensures ClippedError(x) <= ClippedError(y)
  {
    if Abs(y) < 1.0 {
      HalfSquareMono(x, y);
    } else if Abs(x) < 1.0 {
      HalfSquareBelow(x);
    }
  }

  /**
   * The reason for clipping: the error changes by at most |x - y| between any
   * two deltas, so no single transition contributes a slope larger than 1.
   */
  lemma ClippedErrorOneLipschitz(x: real, y: real)
    ensures Abs(ClippedError(x) - ClippedError(y)) <= Abs(x - y)
  {
    assert Abs(Abs(x) - Abs(y)) <= Abs(x - y);
    if Abs(x) < 1.0 && Abs(y) < 1.0 {
      HalfSquareDiff(x, y);
    } else if Abs(x) < 1.0 {
      HalfSquareAbove(x);
      HalfSquareBelow(x);
    } else if Abs(y) < 1.0 {
      HalfSquareAbove(y);
      HalfSquareBelow(y);
    }
  }

  // Facts about squares that the solver does not find unaided.

  /** Past a non-negative threshold, the linear branch of the Huber loss is non-negative. */
  lemma LinearBranchNonNeg(x: real, d: real)
    requires d < Abs(x)
    ensures 0.0 <= d ==> 0.0 <= 0.5 * d * d + d * (Abs(x) - d)
  {
    if 0.0 <= d {
      NonNegProduct(d, Abs(x) - d);
      NonNegProduct(d, d);
    }
  }

  /** |d| - 1/2 <= d²/2, because (|d| - 1)² >= 0. */
  lemma HalfSquareAbove(d: real)
    ensures Abs(d) - 0.5 <= d * d * 0.5
  {
    var a := Abs(d);
    assert d * d == a * a;
    assert (a - 1.0) * (a - 1.0) >= 0.0;
  }

  lemma HalfSquareBelow(d: real)
    requires Abs(d) <= 1.0
    ensures 0.0 <= d * d * 0.5 <= Abs(d) && d * d * 0.5 <= 0.5
  {
    var a := Abs(d);
    assert d * d == a * a;
    assert a * a <= a;
    NonNegProduct(a, a);
  }

  lemma HalfSquareMono(x: real, y: real)
    requires Abs(x) <= Abs(y)
    ensures x * x * 0.5 <= y * y * 0.5
  {
    var a, b := Abs(x), Abs(y);
    assert x * x == a * a && y * y == b * b;
    assert a * a <= b * b;
  }
  /** |x²/2 - y²/2| = ||x| - |y|| (|x| + |y|) / 2. */
  lemma HalfSquareDiff(x: real, y: real)
    requires Abs(x) + Abs(y) <= 2.0
    ensures Abs(x * x * 0.5 - y * y * 0.5) <= Abs(Abs(x) - Abs(y))
  {
    var a, b := Abs(x), Abs(y);
    assert x * x == a * a && y * y == b * b;
    if a >= b {
      OrderedHalfSquareDiff(a, b);
    } else {
      OrderedHalfSquareDiff(b, a);
    }
  }

  lemma OrderedHalfSquareDiff(a: real, b: real)
    requires 0.0 <= b <= a && a + b <= 2.0
    ensures 0.0 <= a * a * 0.5 - b * b * 0.5 <= a - b
  {
    assert a * a * 0.5 - b * b * 0.5 == (a - b) * (a + b) * 0.5;
    NonNegProduct(a - b, 2.0 - (a + b));
    NonNegProduct(a - b, a + b);
  }

  /** A mean lies between any lower and upper bound of the batch. */
  lemma MeanBounds(s: seq<real>, lo: real, hi: real)
    requires |s| > 0
    ensures (forall i :: 0 <= i < |s| ==> lo <= s[i]) ==> lo <= Mean(s)
    ensures (forall i :: 0 <= i < |s| ==> s[i] <= hi) ==> Mean(s) <= hi
  {
    var n := |s| as real;
    if forall i :: 0 <= i < |s| ==> lo <= s[i] {
      SumAtLeast(s, lo);
      assert lo * n <= Sum(s);
    }
    if forall i :: 0 <= i < |s| ==> s[i] <= hi {
      SumAtMost(s, hi);
      assert Sum(s) <= hi * n;
    }
  }

  lemma {:induction false} SumAtLeast(s: seq<real>, lo: real)
    requires forall i :: 0 <= i < |s| ==> lo <= s[i]
    ensures lo * (|s| as real) <= Sum(s)
  {
    if s != [] {
      SumAtLeast(s[1..], lo);
    }
  }

  lemma {:induction false} SumAtMost(s: seq<real>, hi: real)
    requires forall i :: 0 <= i < |s| ==> s[i] <= hi
    ensures Sum(s) <= hi * (|s| as real)
  {
    if s != [] {
      SumAtMost(s[1..], hi);
    }
  }
}

=== FILE: parameters.dfy ===
/**
 * The named constants of the Parameters class that the learning loop reads.
 * Their values are not part of this model, so every member takes them as a
 * Config value.
 */
module Parameters {

  datatype Config = Config(
    actionSpace: nat,                  // ACTION_SPACE
    discountFactor: real,              // DISCOUNT_FACTOR
    replayStartSize: int,              // REPLAY_START_SIZE
    updateFrequency: int,              // UPDATE_FREQUENCY
    targetNetworkUpdateFrequency: int, // TARGET_NETWORK_UPDATE_FREQUENCY
    initialExploration: real,          // INITIAL_EXPLORATION
    finalExploration: real,            // FINAL_EXPLORATION
    finalExplorationFrame: int,        // FINAL_EXPLORATION_FRAME
    agentHistoryLength: int,           // AGENT_HISTORY_LENGTH
    memoryCapacity: nat)               // capacity of the replay memory
  {
    /**
     * What the code needs of the constants to run at all: an action to draw
     * (randint(0, 0) raises), and non-zero divisors for the two `%` triggers
     * and for the epsilon formula (each would raise ZeroDivisionError).
     */
    predicate Valid() {
      && actionSpace > 0
      && updateFrequency != 0
      && targetNetworkUpdateFrequency != 0
      && finalExplorationFrame != 0
    }
  }
}

=== FILE: reals.dfy ===
/**
 * Sign facts about products and quotients of reals that the solver does not
 * find on its own once other nonlinear terms are in scope.
 */
module RealFacts {

  lemma NonNegProduct(x: real, y: real)
    requires 0.0 <= x && 0.0 <= y
    ensures 0.0 <= x * y
  {
  }

  lemma NonPositiveProduct(x: real, y: real)
    requires 0.0 <= x && y <= 0.0
    ensures x * y <= 0.0
  {
  }

  lemma PositiveProduct(x: real, y: real)
    requires 0.0 < x && 0.0 < y
    ensures 0.0 < x * y
  {
  }

  lemma QuotientAtLeastOne(a: real, b: real)
    requires 0.0 < b <= a
    ensures a / b >= 1.0
  {
  }
}

=== FILE: schedule.dfy ===
/**
 * The step-driven rules of the Agent (agent.py): the exploration probability
 * of select_action and the two triggers of observe. All are functions of the
 * step counter and the configuration.
 */
module Schedule {

  import opened Parameters
  import opened RealFacts

  /** Python's max(a, b) on floats. */
  function RealMax(a: real, b: real): real {
    if a >= b then a else b
  }

  /**
   * eps of select_action, exactly as written: with dt = step - REPLAY_START_SIZE,
   * FINAL_EXPLORATION + max(0, dt * (FINAL_EXPLORATION_FRAME - max(0, dt)) / FINAL_EXPLORATION_FRAME).
   * INITIAL_EXPLORATION does not occur in it.
   */
  function Epsilon(cfg: Config, step: int): (eps: real)
    requires cfg.finalExplorationFrame != 0
    ensures eps >= cfg.finalExploration
  {
    var dt := (step - cfg.replayStartSize) as real;
    var frame := cfg.finalExplorationFrame as real;
    cfg.finalExploration + RealMax(0.0, dt * (frame - RealMax(0.0, dt)) / frame)
  }

  /** The SGD trigger of observe: past warm-up, on an exact multiple of UPDATE_FREQUENCY. */
  predicate LearnFires(cfg: Config, step: int)
    requires cfg.updateFrequency != 0
    ensures LearnFires(cfg, step) <==>
      step > cfg.replayStartSize && exists k :: step == Times(k, cfg.updateFrequency)
  {
    RemainderZeroIffMultiple(step, cfg.updateFrequency);
    step > cfg.replayStartSize && step % cfg.updateFrequency == 0
  }

  /**
   * The target-network trigger of observe: past warm-up, on an exact multiple
   * of TARGET_NETWORK_UPDATE_FREQUENCY.
   */
  predicate SyncFires(cfg: Config, step: int)
    requires cfg.targetNetworkUpdateFrequency != 0
    ensures SyncFires(cfg, step) <==>
      step > cfg.replayStartSize && exists k :: step == Times(k, cfg.targetNetworkUpdateFrequency)
  {
    RemainderZeroIffMultiple(step, cfg.targetNetworkUpdateFrequency);
    step > cfg.replayStartSize && step % cfg.targetNetworkUpdateFrequency == 0
  }

  // ---------------------------------------------------------------------------
  // Epsilon

  /**
   * Outside the window (0, FINAL_EXPLORATION_FRAME) the schedule is flat at
   * FINAL_EXPLORATION: before learning starts, at dt = 0 and after the window.
   */
  lemma EpsilonFlatOutsideWindow(cfg: Config, step: int)
    requires cfg.finalExplorationFrame > 0
    requires step - cfg.replayStartSize <= 0 || step - cfg.replayStartSize >= cfg.finalExplorationFrame
    ensures Epsilon(cfg, step) == cfg.finalExploration
  {
    var dt := (step - cfg.replayStartSize) as real;
    var frame := cfg.finalExplorationFrame as real;
    if dt <= 0.0 {
      assert dt * (frame - RealMax(0.0, dt)) == dt * frame;
      NonPositiveProduct(frame, dt);
    } else {
      NonPositiveProduct(dt, frame - dt);
    }
    assert dt * (frame - RealMax(0.0, dt)) / frame <= 0.0;
  }

  /**
   * Inside the window the schedule is the parabola dt (F - dt) / F above
   * FINAL_EXPLORATION, not a linear anneal from INITIAL_EXPLORATION.
   */
  lemma EpsilonParabolaInsideWindow(cfg: Config, step: int)
    requires cfg.finalExplorationFrame > 0
    requires 0 < step - cfg.replayStartSize < cfg.finalExplorationFrame
    ensures var dt := (step - cfg.replayStartSize) as real;
            var frame := cfg.finalExplorationFrame as real;
            Epsilon(cfg, step) == cfg.finalExploration + dt * (frame - dt) / frame
    ensures Epsilon(cfg, step) > cfg.finalExploration
  {
    var dt := (step - cfg.replayStartSize) as real;
    var frame := cfg.finalExplorationFrame as real;
    PositiveProduct(dt, frame - dt);
  }

  /**
   * Halfway through a window of at least 4 steps the exploration probability
   * is at least FINAL_EXPLORATION + 1, so with FINAL_EXPLORATION >= 0 the
   * test random.random() < eps always takes the random branch there.
   */
  lemma EpsilonAtLeastOneAboveMidWindow(cfg: Config)
    requires cfg.finalExplorationFrame >= 4
    ensures Epsilon(cfg, cfg.replayStartSize + cfg.finalExplorationFrame / 2) >= cfg.finalExploration + 1.0
  {
    var h := cfg.finalExplorationFrame / 2;
    var dt := h as real;
    var frame := cfg.finalExplorationFrame as real;
    HalfwayBounds(cfg.finalExplorationFrame);
    assert (cfg.replayStartSize + h - cfg.replayStartSize) as real == dt;
    assert RealMax(0.0, dt) == dt;
    // dt (F - dt) >= 2 (F - dt) >= F
    NonNegProduct(dt - 2.0, frame - dt);
    var q := dt * (frame - dt) / frame;
    QuotientAtLeastOne(dt * (frame - dt), frame);
    assert Epsilon(cfg, cfg.replayStartSize + h) == cfg.finalExploration + RealMax(0.0, q);
  }

  /** Half of a window of F >= 4 steps is at least 2 and at most F minus itself. */
  lemma HalfwayBounds(f: int)
    requires f >= 4
    ensures 2.0 <= (f / 2) as real <= (f as real) - ((f / 2) as real)
  {
    var h := f / 2;
    assert f == 2 * h + f % 2;
    assert 2 <= h <= f - h;
    assert (f - h) as real == (f as real) - (h as real);
  }

  /** A different INITIAL_EXPLORATION leaves the schedule unchanged. */
  lemma EpsilonIgnoresInitialExploration(cfg: Config, initial: real, step: int)
    requires cfg.finalExplorationFrame != 0
    ensures Epsilon(cfg.(initialExploration := initial), step) == Epsilon(cfg, step)
  {
    var dt := (step - cfg.replayStartSize) as real;
    var frame := cfg.finalExplorationFrame as real;
    var e := cfg.finalExploration + RealMax(0.0, dt * (frame - RealMax(0.0, dt)) / frame);
    assert Epsilon(cfg.(initialExploration := initial), step) == e;
    assert Epsilon(cfg, step) == e;
  }

  // ---------------------------------------------------------------------------
  // Triggers

  /** k times f, named so that "step is a multiple of f" can be quantified over k. */
  function Times(k: int, f: int): int {
    k * f
  }

  /**
   * Python's `step % f == 0` holds exactly when step is a multiple of f, for a
   * divisor of either sign.
   */
  lemma RemainderZeroIffMultiple(x: int, d: int)
    requires d != 0
    ensures x % d == 0 <==> exists k :: x == Times(k, d)
  {
    var ad := if d > 0 then d else -d;
    if x % d == 0 {
      DivisionIdentity(x, d);
      assert x == Times(x / d, d);
    }
    if exists k :: x == Times(k, d) {
      var k :| x == Times(k, d);
      var j := if d > 0 then k else -k;
      assert x == j * ad;
      MultipleIsDivisible(j, ad);
      SameRemainderEitherSign(x, d);
    }
  }

  /** During warm-up neither learning nor synchronisation happens. */
  lemma NothingFiresDuringWarmUp(cfg: Config, step: int)
    requires cfg.Valid()
    requires step <= cfg.replayStartSize
    ensures !LearnFires(cfg, step) && !SyncFires(cfg, step)
  {
  }

  lemma DivisionIdentity(x: int, d: int)
    requires d != 0
    ensures x == (x / d) * d + x % d
    ensures d > 0 ==> 0 <= x % d < d
  {
  }

  /** Dafny's remainder depends only on the size of the divisor. */
  lemma SameRemainderEitherSign(x: int, d: int)
    requires d != 0
    ensures x % d == x % (if d > 0 then d else -d)
  {
  }

  lemma ScaledAwayFromZero(m: int, d: int)
    requires d > 0
    ensures m > 0 ==> m * d >= d
    ensures m < 0 ==> m * d <= -d
  {
  }

  /** A multiple of a positive d leaves remainder 0, because quotient and remainder are unique. */
  lemma MultipleIsDivisible(k: int, d: int)
    requires d > 0
    ensures (k * d) % d == 0
  {
    var x := k * d;
    DivisionIdentity(x, d);
    var m := k - x / d;
    assert m * d == k * d - (x / d) * d;
    ScaledAwayFromZero(m, d);
  }

  /** Once a trigger fires, it fires again one period later. */
  lemma TriggersRecurEveryPeriod(cfg: Config, step: int)
    requires cfg.updateFrequency > 0 && cfg.targetNetworkUpdateFrequency > 0
    ensures LearnFires(cfg, step) ==> LearnFires(cfg, step + cfg.updateFrequency)
    ensures SyncFires(cfg, step) ==> SyncFires(cfg, step + cfg.targetNetworkUpdateFrequency)
  {
    var u, t := cfg.updateFrequency, cfg.targetNetworkUpdateFrequency;
    if LearnFires(cfg, step) {
      assert step + u == (step / u + 1) * u;
      MultipleIsDivisible(step / u + 1, u);
    }
    if SyncFires(cfg, step) {
      assert step + t == (step / t + 1) * t;
      MultipleIsDivisible(step / t + 1, t);
    }
  }

  lemma Regroup(a: int, b: int, c: int)
    ensures (a * b) * c == (b * c) * a == (a * c) * b
  {
  }

  /**
   * The two triggers are independent tests of the same step: with positive
   * frequencies, some step past warm-up fires both of them.
   */
  lemma BothTriggersCanFire(cfg: Config)
    requires cfg.updateFrequency > 0 && cfg.targetNetworkUpdateFrequency > 0
    ensures exists step :: LearnFires(cfg, step) && SyncFires(cfg, step)
  {
    var u, t := cfg.updateFrequency, cfg.targetNetworkUpdateFrequency;
    var m := if cfg.replayStartSize < 0 then 1 else cfg.replayStartSize + 1;
    var step := (u * t) * m;
    ScaledAwayFromZero(u, t);
    ScaledAwayFromZero(m, u * t);
    assert step >= m > cfg.replayStartSize;
    MultipleIsDivisible(t * m, u);
    MultipleIsDivisible(u * m, t);
    Regroup(u, t, m);
    assert LearnFires(cfg, step);
    assert SyncFires(cfg, step);
  }
}

=== FILE: tensors.dfy ===
/**
 * Value types shared by the network, the replay memory and the environment.
 * Tensors are flattened to sequences of reals: the model never looks at a
 * tensor's shape, and reals stand for TensorFlow's float32.
 */
module Tensors {

  /** A tensor's elements, flattened. */
  type Tensor = seq<real>

  /** One preprocessed screen captured from the emulator. */
  type Screen = seq<real>

  /** The network input built by the environment from its screen history. */
  type State = seq<Screen>
}

=== FILE: wrappers.dfy ===
/** The optional value the model uses where the source returns None. */
module Wrappers {

  datatype Option<+T> = None | Some(value: T)
}
